=== FILE: README.md ===
# E57Exception and the ErrorCode catalog of libE57Format

libE57Format reports every failure of its API by throwing an `E57Exception`.
The exception carries:

- an `ErrorCode`;
- a free-form context string;
- the source file, line and function where it was thrown.

This project models in Dafny what `E57Exception.cpp` does with those values:

- **Constructor.** It stores its arguments. It keeps only the last path component of the source file name. That is `substr(find_last_of("/\\") + 1)`, including the `npos + 1 == 0` wrap-around when the path has no separator.
- **Accessors and `what()`.** The accessors return what was stored. `what()` returns the constant "E57 exception" for every instance.
- **`Utilities::errorCodeToString`.** The catalog switch gives each of the 51 enumerators that have a case a sentence followed by the enumerator's identifier in parentheses. Any other value gets "unknown error (" + `std::to_string(value)` + ")".
- **`report()`.** It writes the headline. In a build with `E57_DEBUG` it also writes:
  - the context and function lines;
  - an editor-readable line `file(line) : error C<code>:  <--- occurred on`;
  - optionally, the matching "reported on" line.

Modules, one per file:

| file | module | contents |
|---|---|---|
| `wrappers.dfy` | `Wrappers` | `Option` |
| `text.dfy` | `Text` | suffixes, character-set searches (`find_last_of`) |
| `decimal.dfy` | `Decimal` | `std::to_string` for `int` and its inverse |
| `source_path.dfy` | `SourcePath` | the constructor's basename, with `size_t` wrap-around |
| `identifiers.dfy` | `Identifiers` | the 51 enumerator identifiers, each checked once to be an identifier (ends in a capital letter, no '(') |
| `error_codes.dfy` | `ErrorCodes` | the enumerators, their order in the switch, the numbering, and which branch a value takes |
| `catalog.dfy` | `Catalog` | the description texts and `errorCodeToString` |
| `exception.dfy` | `Exceptions` | the exception value, `what()`, the location lines and `report()` |

The numeric values of the enumerators are defined in `E57Exception.h`, which is not part of this model.

- An `Enumeration` (identifier → int) stands for that numbering. Everything that depends on it takes it as a parameter.
- `Distinct(en)` says no two enumerators share a value. A C++ switch with two equal case labels does not compile, so every numbering the library builds with satisfies it. `DistinctSatisfiable` exhibits one such numbering: each identifier numbered by its position in the switch.
- The injectivity of `errorCodeToString` holds under *every* numbering. Its proof reads the identifier or numeral back from the end of a description, and an identifier's value is a function of the identifier.

Where the documentation and the code disagree, the model follows the code:

- **`what()`.** The doc comment (E57Exception.cpp:191) says "E57 Exception". The code returns "E57 exception".

Two report formats, as the code writes them:

- **First line of `report()`.** It is "**** Got an e57 exception: " followed by `errorCodeToString(errorCode())` (E57Exception.cpp:140).
- **Location line.** It is `file(line) : error C<code>:  <--- occurred on` (E57Exception.cpp:151), so the file name and line come first.

## Model

| member | source | states |
|---|---|---|
| SourcePath.FindLastSeparator | src/3rdParty/libE57Format/src/E57Exception.cpp:116 | `find_last_of("/\\")` is npos exactly when the path has no separator; otherwise it is the position of a separator with none after it |
| SourcePath.Basename | src/3rdParty/libE57Format/src/E57Exception.cpp:116 | the stored name is a suffix of the path and holds no separator. A path without separators is kept whole (npos + 1 wraps to 0). Otherwise the character just before the name is a separator |
| SourcePath.SubstrStart | src/3rdParty/libE57Format/src/E57Exception.cpp:116 | the `size_t` sum `pos + 1` handed to substr wraps to 0 exactly at npos, and is the next position for every position below it |
| SourcePath.BasenameCharacterisation | src/3rdParty/libE57Format/src/E57Exception.cpp:116 | a string is the stored name exactly when it is the longest separator-free suffix of the path (both directions) |
| SourcePath.BasenameOfJoin | src/3rdParty/libE57Format/src/E57Exception.cpp:116 | for dir + separator + file, where file has no separator, the stored name is file |
| SourcePath.BasenameOfPlainTail | src/3rdParty/libE57Format/src/E57Exception.cpp:116 | appending a separator-free tail to a path appends it to the stored name |
| SourcePath.BasenameOfSeparatedTail | src/3rdParty/libE57Format/src/E57Exception.cpp:116 | appending a tail that holds a separator makes the tail alone decide the stored name |
| SourcePath.BasenameIdempotent | src/3rdParty/libE57Format/src/E57Exception.cpp:116 | normalising an already stored name leaves it unchanged |
| SourcePath.BasenameExamples | src/3rdParty/libE57Format/src/E57Exception.cpp:116 | "a/b/c.cpp", "a\\b\\c.cpp" and "c.cpp" all give "c.cpp" |
| Text.LastIndexIn | src/3rdParty/libE57Format/src/E57Exception.cpp:116 | the find_last_of search: none exactly when no character is in the set; otherwise a member of the set with no member after it |
| Text.LastIndexInSplit | src/3rdParty/libE57Format/src/E57Exception.cpp:116 | a delimiter followed only by non-delimiters is the one find_last_of finds |
| Decimal.FromInt | src/3rdParty/libE57Format/src/E57Exception.cpp:443 | `std::to_string` of an int is non-empty, starts with '-' exactly for negative values, and is otherwise digits. It has no leading zero: '0' starts only the numeral of zero, which is "0" alone, and a '-' is never followed by '0' |
| Decimal.ToIntFromInt | src/3rdParty/libE57Format/src/E57Exception.cpp:443 | reading the numeral back gives the value |
| Decimal.FromIntInjective | src/3rdParty/libE57Format/src/E57Exception.cpp:443 | two values have the same numeral exactly when they are equal |
| Decimal.ToInt | src/3rdParty/libE57Format/src/E57Exception.cpp:443 | the reader accepts an optional '-' and digits, with no leading zero except "0" itself and no "-0": only what `std::to_string` writes |
| Decimal.FromIntToInt | src/3rdParty/libE57Format/src/E57Exception.cpp:443 | every numeral the reader accepts is exactly `std::to_string` of the value it reads, so reader and writer are inverse both ways |
| ErrorCodes.SymbolicName | src/3rdParty/libE57Format/src/E57Exception.cpp:297-441 | the identifier of each case label. Its result type `Identifier` checks each one: non-empty, ending in a capital letter, and free of '(' |
| ErrorCodes.KindAtOrdinal | src/3rdParty/libE57Format/src/E57Exception.cpp:297-441 | every enumerator has its own position among the switch's 51 cases |
| ErrorCodes.FindCase | src/3rdParty/libE57Format/src/E57Exception.cpp:293-443 | the dispatch over the remaining case labels finds a case whose enumerator has the value, with no earlier such case; it finds none only when no remaining enumerator has it |
| ErrorCodes.Classify | src/3rdParty/libE57Format/src/E57Exception.cpp:293-443 | a value takes the default branch exactly when no enumerator has it; otherwise it takes a case whose enumerator has it, and under a duplicate-free numbering that is that enumerator's own case |
| ErrorCodes.NameOrdinalOf | src/3rdParty/libE57Format/src/E57Exception.cpp:297-441 | the witness numbering gives each enumerator's identifier that enumerator's switch position |
| ErrorCodes.DistinctSatisfiable | src/3rdParty/libE57Format/src/E57Exception.cpp:293-441 | some numbering has no duplicate values, so the lemmas that assume one are not vacuous |
| Catalog.Prose | src/3rdParty/libE57Format/src/E57Exception.cpp:297-441 | the sentence of each of the 51 cases, in the switch's own words; a description is that sentence, one space, then the parenthesised identifier (see `Catalog.ErrorCodeToStringNamed`) |
| Catalog.Label | src/3rdParty/libE57Format/src/E57Exception.cpp:297-443 | what a description ends with in parentheses is non-empty and holds no '('. It ends in a letter for an enumerator and in a digit for the default branch |
| Catalog.Describe | src/3rdParty/libE57Format/src/E57Exception.cpp:297-443 | every description ends with "(" + identifier-or-numeral + ")" |
| Catalog.ErrorCodeToString | src/3rdParty/libE57Format/src/E57Exception.cpp:291-445 | under a duplicate-free numbering, an enumerator's value is described by a text ending in "(" + its identifier + ")" |
| Catalog.TrailingName | src/3rdParty/libE57Format/src/E57Exception.cpp:297-443 | what is read back from the end of a text is free of '(' and appears there in parentheses |
| Catalog.TrailingNameOfDescribe | src/3rdParty/libE57Format/src/E57Exception.cpp:297-443 | the identifier or numeral is read back exactly from every description, including those whose sentence holds parentheses ("open() failed") |
| Catalog.DescribeDeterminesLabel | src/3rdParty/libE57Format/src/E57Exception.cpp:297-443 | equal descriptions end in the same identifier or numeral |
| Catalog.ErrorCodeToStringInjective | src/3rdParty/libE57Format/src/E57Exception.cpp:291-445 | two values get the same description exactly when they are equal, under any numbering |
| Catalog.ErrorCodeToStringNamed | src/3rdParty/libE57Format/src/E57Exception.cpp:297-441 | an enumerator's value reads back as its identifier, after that case's sentence |
| Catalog.ErrorCodeToStringUnknown | src/3rdParty/libE57Format/src/E57Exception.cpp:442-443 | a value takes the default branch exactly when the character before the closing ')' is a digit. The text is then "unknown error (" + numeral + ")", and the numeral reads back as the value, '-' included |
| Exceptions.NewException | src/3rdParty/libE57Format/src/E57Exception.cpp:111-117 | the stored source file name is the path's basename. Code, context, line and function are stored unchanged, and the accessors at lines 166-250 return them |
| Exceptions.What | src/3rdParty/libE57Format/src/E57Exception.cpp:197-200 | what() returns a non-empty label |
| Exceptions.WhatIsConstant | src/3rdParty/libE57Format/src/E57Exception.cpp:197-200 | what() is "E57 exception" for every exception |
| Exceptions.DebugField | src/3rdParty/libE57Format/src/E57Exception.cpp:144-147 | a debug line is four spaces, the field name, ": " and then exactly the value |
| Exceptions.LocationLine | src/3rdParty/libE57Format/src/E57Exception.cpp:151-154 | a location line starts with the file name and ends with its trailer |
| Exceptions.ParseLocationLine | src/3rdParty/libE57Format/src/E57Exception.cpp:151-154 | a line that parses ends with the trailer and starts with the file name read from it |
| Exceptions.ParsePlace | src/3rdParty/libE57Format/src/E57Exception.cpp:151-154 | the "file(line" part reads back as a file name that is a prefix of it |
| Exceptions.ParseCoded | src/3rdParty/libE57Format/src/E57Exception.cpp:151-154 | a "file(line) : error Ccode" text reads back as a location whose file name is a prefix of it |
| Exceptions.ParsePlaceOfParts | src/3rdParty/libE57Format/src/E57Exception.cpp:151-154 | "file(" + a line numeral reads back as that file and line, whatever characters the file name holds, '(' included |
| Exceptions.ParseCodedOfParts | src/3rdParty/libE57Format/src/E57Exception.cpp:151-154 | a readable place, ") : error C" and a code numeral read back as that place and code |
| Exceptions.ParseOfParts | src/3rdParty/libE57Format/src/E57Exception.cpp:151-154 | a location line assembled from any file name, a line numeral and a code numeral reads back as those three parts |
| Exceptions.LocationLineRoundTrip | src/3rdParty/libE57Format/src/E57Exception.cpp:151-154 | every "file(line) : error Ccode" line reads back as its file, line and code, whatever characters the file name holds |
| Exceptions.ParsePlaceExact | src/3rdParty/libE57Format/src/E57Exception.cpp:151-154 | a "file(line" text that reads back is exactly the file, '(' and the line's numeral |
| Exceptions.ParseCodedExact | src/3rdParty/libE57Format/src/E57Exception.cpp:151-154 | a "file(line) : error Ccode" text that reads back is exactly the one written for what it reads as |
| Exceptions.ParseLocationLineExact | src/3rdParty/libE57Format/src/E57Exception.cpp:151-154 | a line that reads back as a file, line and code is exactly the location line written for them, so the read-back fixes the text (no "(0204)") |
| Exceptions.Headline | src/3rdParty/libE57Format/src/E57Exception.cpp:140 | the first report line is "**** Got an e57 exception: " followed by exactly `errorCodeToString(errorCode())`, and it still reads back as the code's identifier or numeral |
| Exceptions.LocationLines | src/3rdParty/libE57Format/src/E57Exception.cpp:151-154 | the "occurred on" line names the exception's own file, line and code. A "reported on" line with code 0 follows exactly when the reporting file is known. With `ParseLocationLineExact` the read-back fixes each line's text exactly |
| Exceptions.DebugLines | src/3rdParty/libE57Format/src/E57Exception.cpp:143-154 | the debug part, in order: a heading; context and source function; the reporting function only when given; then the location lines |
| Exceptions.Report | src/3rdParty/libE57Format/src/E57Exception.cpp:137-156 | report() writes the headline, then the debug lines in a debug build and nothing more otherwise |
| Exceptions.BareDebugReport | src/3rdParty/libE57Format/src/E57Exception.cpp:137-156 | with no catch site given, a debug report is five writes, each ended by `std::endl`: the code's name, the context, and a location line for the exception. A non-debug report is its first write |
| Exceptions.ReportOfThrow | src/3rdParty/libE57Format/src/E57Exception.cpp:111-156 | an exception thrown from dir/file: its report names the enumerator, carries the context, and points at file(line) without the directory |
| Exceptions.ChecksumScenario | src/3rdParty/libE57Format/src/E57Exception.cpp:111-156 | E57_ERROR_BAD_CHECKSUM thrown from /src/Reader.cpp:204. The report is five writes, names E57_ERROR_BAD_CHECKSUM, carries "checksum=0xDEAD expected=0xBEEF", and its location line reads back as Reader.cpp, 204 |

## Left out

- `Utilities::getVersions` (lines 269-280): it reads build-time macros, not data.
- The `std::exception` base class, `noexcept`, and the lifetime of the `const char*` values the accessors return: these are C++ object mechanics with no observable value.
- The output stream of `report()`: the model returns the lines in order. Each is written followed by `std::endl`.
- Exceptions.LocationLine: the model assumes the caller's stream is in its default state: decimal, no `showpos`, the classic locale, and width 0. `operator<<` (lines 140, 151, 154) honours the caller's flags. After `std::hex`, line 204 would print as `cc`; `showpos` gives `+204`; a grouping locale gives `1,234`; a width left set pads the banner. The catalog fallback at line 443 uses `std::to_string`, which ignores them.
- The numeric values of the enumerators: `E57Exception.h` is not part of this model. Every statement about them is made for any numbering (`Enumeration`), or for any numbering without duplicates.
- The four guarantee categories in the class comment (lines 64-81): they constrain API callers elsewhere in the library, not this file.
- `#ifdef E57_DEBUG`: it becomes the `debug` parameter of `Report`.
- Null `reportingFileName` / `reportingFunctionName`: they become `None`.
- Null `srcFunctionName`: the constructor accepts a null pointer and the accessor returns it; only a debug `report()` is undefined for it (it streams the pointer). The model does not represent the null case and takes a string.
- The width of `int`: line numbers and codes are only printed, never computed on, so they are unbounded integers here.
- Paths: `size_t` is taken as 64 bits; `npos + 1` wraps to 0 at any width, so the result does not depend on it. A path is shorter than npos (`CppString`), as `std::string::max_size()` guarantees.
- Characters: each Dafny `char` of a path, context or name stands for one byte of the `std::string`. `find_last_of` compares bytes, so a multibyte character whose trail byte is 0x5C counts as a separator in the source. The model is exact under this reading.
- Catalog.ErrorCodeToString: the named case is stated only under a duplicate-free numbering. With duplicate values the C++ switch would not compile, so there is no behaviour to state.
- Catalog.Prose: the 51 sentences are transcribed. No property beyond "the identifier follows in parentheses" is stated about their wording.
- Exceptions.What: its own contract states only that the label is non-empty. The exact text and its independence from the exception are stated by `WhatIsConstant`.
- ErrorCodes.KindAtOrdinal: positions are proved distinct for distinct enumerators. That positions 0-50 are each taken is not proved separately; Dafny's exhaustive `match` checks that every enumerator has a case.

=== FILE: catalog.dfy ===
/**
 Utilities::errorCodeToString: the one-line English description of an
 ErrorCode value. Every enumerator with a case is described by a sentence
 followed by its identifier in parentheses; every other value by
 "unknown error (" followed by its decimal numeral and ")".
 */
module Catalog {
  import opened Wrappers
  import opened Text
  import opened Decimal
  import opened ErrorCodes

  /**
   The sentence each case of the switch puts before the parenthesised
   identifier; Lead adds the single space that follows it.
   */
  function Prose(k: ErrorKind): string {
    match k
    case Success => "operation was successful"
    case BadCvHeader => "a CompressedVector binary header was bad"
    case BadCvPacket => "a CompressedVector binary packet was bad"
    case ChildIndexOutOfBounds => "a numerical index identifying a child was out of bounds"
    case SetTwice => "attempted to set an existing child element to a new value"
    case HomogeneousViolation => "attempted to add an E57 Element that would have made the children of a homogeneous Vector have different types"
    case ValueNotRepresentable => "a value could not be represented in the requested type"
    case ScaledValueNotRepresentable => "after scaling the result could not be represented in the requested type"
    case Real64TooLarge => "a 64 bit IEEE float was too large to store in a 32 bit IEEE float"
    case ExpectingNumeric => "Expecting numeric representation in user's buffer, found ustring"
    case ExpectingUstring => "Expecting string representation in user's buffer, found numeric"
    case Internal => "An unrecoverable inconsistent internal state was detected"
    case BadXmlFormat => "E57 primitive not encoded in XML correctly"
    case XmlParser => "XML not well formed"
    case BadApiArgument => "bad API function argument provided by user"
    case FileIsReadOnly => "can't modify read only file"
    case BadChecksum => "checksum mismatch, file is corrupted"
    case OpenFailed => "open() failed"
    case CloseFailed => "close() failed"
    case ReadFailed => "read() failed"
    case WriteFailed => "write() failed"
    case LseekFailed => "lseek() failed"
    case PathUndefined => "E57 element path well formed but not defined"
    case BadBuffer => "bad SourceDestBuffer"
    case NoBufferForElement => "no buffer specified for an element in CompressedVectorNode during write"
    case BufferSizeMismatch => "SourceDestBuffers not all same size"
    case BufferDuplicatePathname => "duplicate pathname in CompressedVectorNode read/write"
    case BadFileSignature => "file signature not ASTM-E57"
    case UnknownFileVersion => "incompatible file version"
    case BadFileLength => "size in file header not same as actual"
    case XmlParserInit => "XML parser failed to initialize"
    case DuplicateNamespacePrefix => "namespace prefix already defined"
    case DuplicateNamespaceUri => "namespace URI already defined"
    case BadPrototype => "bad prototype in CompressedVectorNode"
    case BadCodecs => "bad codecs in CompressedVectorNode"
    case ValueOutOfBounds => "element value out of min/max bounds"
    case ConversionRequired => "conversion required to assign element value, but not requested"
    case BadPathName => "E57 path name is not well formed"
    case NotImplemented => "functionality not implemented"
    case BadNodeDowncast => "bad downcast from Node to specific node type"
    case WriterNotOpen => "CompressedVectorWriter is no longer open"
    case ReaderNotOpen => "CompressedVectorReader is no longer open"
    case NodeUnattached => "node is not yet attached to tree of ImageFile"
    case AlreadyHasParent => "node already has a parent"
    case DifferentDestImagefile => "nodes were constructed with different destImageFiles"
    case ImagefileNotOpen => "destImageFile is no longer open"
    case BuffersNotCompatible => "SourceDestBuffers not compatible with previously given ones"
    case TooManyWriters => "too many open CompressedVectorWriters of an ImageFile"
    case TooManyReaders => "too many open CompressedVectorReaders of an ImageFile"
    case BadConfiguration => "bad configuration string"
    case InvarianceViolation => "class invariance constraint violation in debug mode"
  }

  /** The text the default branch puts before the numeral. */
  const UnknownLead: string := "unknown error "

  /** What a description ends with in parentheses: the identifier, or the numeral. */
  function Label(c: Code): (l: string)
    ensures |l| > 0 && '(' !in l
    ensures c.Named? ==> 'A' <= l[|l| - 1] <= 'Z'
    ensures c.Unnamed? ==> IsDigit(l[|l| - 1])
  {
    match c
    case Named(k) => SymbolicName(k)
    case Unnamed(n) => FromInt(n)
  }

  /** `name` in parentheses after `lead`: the shape of every description. */
  function Enclose(lead: string, name: string): (s: string)
    ensures IsSuffix("(" + name + ")", s)
    ensures |s| == |lead| + |name| + 2 && s[..|lead|] == lead
  {
    lead + "(" + name + ")"
  }

  /** What a description puts before the parenthesised identifier or numeral. */
  function Lead(c: Code): string {
    match c
    case Named(k) => Prose(k) + " "
    case Unnamed(_) => UnknownLead
  }

  /** Text put in front of an enclosed name becomes part of its lead. */
  lemma {:induction false} EncloseAfter(p: string, lead: string, name: string)
    ensures p + Enclose(lead, name) == Enclose(p + lead, name)
  {
    assert p + (lead + "(" + name + ")") == (p + lead) + "(" + name + ")";
  }

  /** The description of a classified code. */
  function Describe(c: Code): (s: string)
    ensures IsSuffix("(" + Label(c) + ")", s)
  {
    Enclose(Lead(c), Label(c))
  }

  /**
   Utilities::errorCodeToString under the numbering `en`: an enumerator's
   value is described by a text ending in its identifier in parentheses, any
   other value by "unknown error (" and its numeral.
   */
  function ErrorCodeToString(en: Enumeration, code: int): (s: string)
    ensures Distinct(en) ==> forall k :: Value(en, k) == code ==> IsSuffix("(" + SymbolicName(k) + ")", s)
  {
    Describe(Classify(en, code))
  }

  /**
   Reads back the parenthesised group a description ends with: the text
   between the last '(' and the final ')'.
   */
  function TrailingName(s: string): (r: Option<string>)
    ensures r.Some? ==> '(' !in r.value && IsSuffix("(" + r.value + ")", s)
  {
    if |s| == 0 || s[|s| - 1] != ')' then None
    else
      var body := s[..|s| - 1];
      match LastIndexIn(body, {'('})
      case None => None
      case Some(i) =>
        var name := body[i + 1..];
        assert s[|s| - |name| - 2..] == [body[i]] + name + [')'];
        assert forall j :: 0 <= j < |name| ==> name[j] == body[i + 1..][j];
        Some(name)
  }

  /** A label in parentheses at the end of a string is read back exactly. */
  lemma {:induction false} TrailingNameAfter(p: string, l: string)
    requires '(' !in l
    ensures TrailingName(Enclose(p, l)) == Some(l)
  {
    var s := Enclose(p, l);
    var body := s[..|s| - 1];
    assert body == p + ['('] + l;
    assert Avoids(l, {'('});
    LastIndexInSplit(p, '(', l, {'('});
    assert body[|p| + 1..] == l;
  }

  /** The identifier or numeral at the end of every description is read back exactly. */
  lemma TrailingNameOfDescribe(c: Code)
    ensures TrailingName(Describe(c)) == Some(Label(c))
  {
    TrailingNameAfter(Lead(c), Label(c));
  }

  /** Equal descriptions end in the same identifier or numeral. */
  lemma DescribeDeterminesLabel(a: Code, b: Code)
    ensures Describe(a) == Describe(b) ==> Label(a) == Label(b)
  {
    TrailingNameOfDescribe(a);
    TrailingNameOfDescribe(b);
  }

  /**
   errorCodeToString gives distinct values distinct descriptions, under any
   numbering: the identifier or numeral a description ends with determines
   the value it was made from.
   */
  lemma ErrorCodeToStringInjective(en: Enumeration, x: int, y: int)
    ensures ErrorCodeToString(en, x) == ErrorCodeToString(en, y) <==> x == y
  {
    var a, b := Classify(en, x), Classify(en, y);
    if ErrorCodeToString(en, x) == ErrorCodeToString(en, y) {
      DescribeDeterminesLabel(a, b);
      if a.Unnamed? && b.Unnamed? {
        FromIntInjective(x, y);
      }
    }
  }

  /**
   The description of an enumerator's value names that enumerator: the
   identifier read back from its end is the enumerator's, and the text before
   it is the case's sentence.
   */
  lemma ErrorCodeToStringNamed(en: Enumeration, k: ErrorKind)
    requires Distinct(en)
    ensures TrailingName(ErrorCodeToString(en, Value(en, k))) == Some(SymbolicName(k))
    ensures ErrorCodeToString(en, Value(en, k))[..|Prose(k)| + 1] == Prose(k) + " "
  {
    TrailingNameOfDescribe(Named(k));
  }

  /**
   A value is described by the default branch exactly when no enumerator has
   it, and then the numeral read back from the description is the value.
   */
  lemma ErrorCodeToStringUnknown(en: Enumeration, n: int)
    ensures (forall k :: Value(en, k) != n) <==> IsDigit(ErrorCodeToString(en, n)[|ErrorCodeToString(en, n)| - 2])
    ensures (forall k :: Value(en, k) != n) ==> ErrorCodeToString(en, n) == UnknownLead + "(" + FromInt(n) + ")"
    ensures (forall k :: Value(en, k) != n) ==> TrailingName(ErrorCodeToString(en, n)) == Some(FromInt(n))
    ensures (forall k :: Value(en, k) != n) ==> ToInt(FromInt(n)) == Some(n)
  {
    var c := Classify(en, n);
    var s := Describe(c);
    var l := Label(c);
    assert s[|s| - |l| - 2..] == "(" + l + ")";
    assert s[|s| - 2] == l[|l| - 1];
    TrailingNameOfDescribe(c);
    ToIntFromInt(n);
  }
}

=== FILE: decimal.dfy ===
/**
 Decimal numerals as std::to_string writes them for an int, and their reading
 back. The catalog's fallback text and the report's location lines embed them.
 */
module Decimal {
  import opened Wrappers
  import opened Text

  predicate IsDigit(c: char) {
    '0' <= c <= '9'
  }

  predicate AllDigits(s: string) {
    forall i :: 0 <= i < |s| ==> IsDigit(s[i])
  }

  function DigitValue(c: char): (d: nat)
    requires IsDigit(c)
    ensures d < 10
  {
    c as int - '0' as int
  }

  function DigitChar(d: nat): (c: char)
    requires d < 10
    ensures IsDigit(c) && DigitValue(c) == d
  {
    ('0' as int + d) as char
  }

  /** The numeral of `n`, most significant digit first and without leading zeros. */
  function NatToString(n: nat): (s: string)
    ensures |s| > 0 && AllDigits(s)
    ensures s[0] == '0' <==> n == 0
    ensures s[0] == '0' ==> |s| == 1
    decreases n
  {
    if n < 10 then [DigitChar(n)] else NatToString(n / 10) + [DigitChar(n % 10)]
  }

  /**
   std::to_string on an int: the digits of the magnitude, preceded by '-'
   exactly when the value is negative.
   */
  function FromInt(n: int): (s: string)
    ensures |s| > 0
    ensures s[0] == '-' <==> n < 0
    ensures n < 0 ==> |s| > 1 && AllDigits(s[1..])
    ensures n >= 0 ==> AllDigits(s)
    ensures IsDigit(s[|s| - 1])
    ensures n >= 0 ==> (s[0] == '0' <==> n == 0) && (s[0] == '0' ==> |s| == 1)
    ensures n < 0 ==> s[1] != '0'
  {
    if n < 0 then "-" + NatToString(-n) else NatToString(n)
  }

  /** The value of a string of digits (zero for the empty string). */
  function ParseNat(s: string): nat
    requires AllDigits(s)
  {
    if |s| == 0 then 0 else ParseNat(s[..|s| - 1]) * 10 + DigitValue(s[|s| - 1])
  }

  /**
   Reads a numeral back: one or more digits, optionally preceded by '-', with
   no leading zero other than the numeral "0" itself, and no "-0".
   */
  function ToInt(s: string): (r: Option<int>)
    ensures r.Some? ==> |s| > 0 && (IsDigit(s[0]) || s[0] == '-')
    ensures r.Some? && s[0] == '0' ==> s == "0"
    ensures r.Some? && s[0] == '-' ==> |s| > 1 && s[1] != '0'
  {
    if |s| > 0 && AllDigits(s) && (s[0] == '0' ==> |s| == 1) then Some(ParseNat(s))
    else if |s| > 1 && s[0] == '-' && AllDigits(s[1..]) && s[1] != '0' then Some(-(ParseNat(s[1..]) as int))
    else None
  }

  lemma {:induction false} ParseNatToString(n: nat)
    ensures ParseNat(NatToString(n)) == n
    decreases n
  {
    if n >= 10 {
      var s := NatToString(n);
      assert s[..|s| - 1] == NatToString(n / 10);
      ParseNatToString(n / 10);
    }
  }

  /** Reading back what std::to_string wrote gives the original value. */
  lemma ToIntFromInt(n: int)
    ensures ToInt(FromInt(n)) == Some(n)
  {
    var s := FromInt(n);
    if n < 0 {
      assert s[1..] == NatToString(-n);
      ParseNatToString(-n);
    } else {
      ParseNatToString(n);
    }
  }

  /** A numeral without a leading zero is the numeral of its own value. */
  lemma {:induction false} NatToStringParseNat(s: string)
    requires |s| > 0 && AllDigits(s) && (s[0] == '0' ==> |s| == 1)
    ensures NatToString(ParseNat(s)) == s
    decreases |s|
  {
    if |s| > 1 {
      var t := s[..|s| - 1];
      assert t[0] == s[0];
      NatToStringParseNat(t);
      var m := ParseNat(t);
      assert m != 0;
      assert ParseNat(s) / 10 == m && ParseNat(s) % 10 == DigitValue(s[|s| - 1]);
      assert s == t + [s[|s| - 1]];
    }
  }

  /** Every text ToInt accepts is exactly what std::to_string writes for its value. */
  lemma FromIntToInt(s: string)
    requires ToInt(s).Some?
    ensures FromInt(ToInt(s).value) == s
  {
    if |s| > 0 && AllDigits(s) && (s[0] == '0' ==> |s| == 1) {
      NatToStringParseNat(s);
    } else {
      var t := s[1..];
      assert t[0] == s[1];
      NatToStringParseNat(t);
      assert ParseNat(t) != 0;
      assert s == "-" + t;
    }
  }

  /** Distinct values have distinct numerals. */
  lemma FromIntInjective(a: int, b: int)
    ensures FromInt(a) == FromInt(b) <==> a == b
  {
    if FromInt(a) == FromInt(b) {
      ToIntFromInt(a);
      ToIntFromInt(b);
    }
  }

  /** A numeral holds no character other than '-' and the digits. */
  lemma NumeralAvoids(n: int, cs: set<char>)
    requires '-' !in cs && forall c :: c in cs ==> !IsDigit(c)
    ensures Avoids(FromInt(n), cs)
  {
    var s := FromInt(n);
    forall i | 0 <= i < |s| ensures s[i] !in cs {
      if i > 0 && n < 0 {
        assert s[i] == s[1..][i - 1];
      }
    }
  }
}

=== FILE: error_codes.dfy ===
/**
 The library's ErrorCode enumeration as the catalog switch sees it: one
 constructor per enumerator that has a case. The numeric values are fixed by
 E57Exception.h, which is not part of this model; an `Enumeration` stands for
 that numbering and is a parameter of everything that depends on it.
 */
module ErrorCodes {
  import opened Wrappers
  import opened Identifiers

  /** The enumerators errorCodeToString has a case for, in the order of its switch. */
  datatype ErrorKind =
      Success
    | BadCvHeader
    | BadCvPacket
    | ChildIndexOutOfBounds
    | SetTwice
    | HomogeneousViolation
    | ValueNotRepresentable
    | ScaledValueNotRepresentable
    | Real64TooLarge
    | ExpectingNumeric
    | ExpectingUstring
    | Internal
    | BadXmlFormat
    | XmlParser
    | BadApiArgument
    | FileIsReadOnly
    | BadChecksum
    | OpenFailed
    | CloseFailed
    | ReadFailed
    | WriteFailed
    | LseekFailed
    | PathUndefined
    | BadBuffer
    | NoBufferForElement
    | BufferSizeMismatch
    | BufferDuplicatePathname
    | BadFileSignature
    | UnknownFileVersion
    | BadFileLength
    | XmlParserInit
    | DuplicateNamespacePrefix
    | DuplicateNamespaceUri
    | BadPrototype
    | BadCodecs
    | ValueOutOfBounds
    | ConversionRequired
    | BadPathName
    | NotImplemented
    | BadNodeDowncast
    | WriterNotOpen
    | ReaderNotOpen
    | NodeUnattached
    | AlreadyHasParent
    | DifferentDestImagefile
    | ImagefileNotOpen
    | BuffersNotCompatible
    | TooManyWriters
    | TooManyReaders
    | BadConfiguration
    | InvarianceViolation

  /** The identifier of each enumerator. */
  function SymbolicName(k: ErrorKind): Identifier {
    match k
    case Success => E57_SUCCESS
    case BadCvHeader => E57_ERROR_BAD_CV_HEADER
    case BadCvPacket => E57_ERROR_BAD_CV_PACKET
    case ChildIndexOutOfBounds => E57_ERROR_CHILD_INDEX_OUT_OF_BOUNDS
    case SetTwice => E57_ERROR_SET_TWICE
    case HomogeneousViolation => E57_ERROR_HOMOGENEOUS_VIOLATION
    case ValueNotRepresentable => E57_ERROR_VALUE_NOT_REPRESENTABLE
    case ScaledValueNotRepresentable => E57_ERROR_SCALED_VALUE_NOT_REPRESENTABLE
    case Real64TooLarge => E57_ERROR_REAL64_TOO_LARGE
    case ExpectingNumeric => E57_ERROR_EXPECTING_NUMERIC
    case ExpectingUstring => E57_ERROR_EXPECTING_USTRING
    case Internal => E57_ERROR_INTERNAL
    case BadXmlFormat => E57_ERROR_BAD_XML_FORMAT
    case XmlParser => E57_ERROR_XML_PARSER
    case BadApiArgument => E57_ERROR_BAD_API_ARGUMENT
    case FileIsReadOnly => E57_ERROR_FILE_IS_READ_ONLY
    case BadChecksum => E57_ERROR_BAD_CHECKSUM
    case OpenFailed => E57_ERROR_OPEN_FAILED
    case CloseFailed => E57_ERROR_CLOSE_FAILED
    case ReadFailed => E57_ERROR_READ_FAILED
    case WriteFailed => E57_ERROR_WRITE_FAILED
    case LseekFailed => E57_ERROR_LSEEK_FAILED
    case PathUndefined => E57_ERROR_PATH_UNDEFINED
    case BadBuffer => E57_ERROR_BAD_BUFFER
    case NoBufferForElement => E57_ERROR_NO_BUFFER_FOR_ELEMENT
    case BufferSizeMismatch => E57_ERROR_BUFFER_SIZE_MISMATCH
    case BufferDuplicatePathname => E57_ERROR_BUFFER_DUPLICATE_PATHNAME
    case BadFileSignature => E57_ERROR_BAD_FILE_SIGNATURE
    case UnknownFileVersion => E57_ERROR_UNKNOWN_FILE_VERSION
    case BadFileLength => E57_ERROR_BAD_FILE_LENGTH
    case XmlParserInit => E57_ERROR_XML_PARSER_INIT
    case DuplicateNamespacePrefix => E57_ERROR_DUPLICATE_NAMESPACE_PREFIX
    case DuplicateNamespaceUri => E57_ERROR_DUPLICATE_NAMESPACE_URI
    case BadPrototype => E57_ERROR_BAD_PROTOTYPE
    case BadCodecs => E57_ERROR_BAD_CODECS
    case ValueOutOfBounds => E57_ERROR_VALUE_OUT_OF_BOUNDS
    case ConversionRequired => E57_ERROR_CONVERSION_REQUIRED
    case BadPathName => E57_ERROR_BAD_PATH_NAME
    case NotImplemented => E57_ERROR_NOT_IMPLEMENTED
    case BadNodeDowncast => E57_ERROR_BAD_NODE_DOWNCAST
    case WriterNotOpen => E57_ERROR_WRITER_NOT_OPEN
    case ReaderNotOpen => E57_ERROR_READER_NOT_OPEN
    case NodeUnattached => E57_ERROR_NODE_UNATTACHED
    case AlreadyHasParent => E57_ERROR_ALREADY_HAS_PARENT
    case DifferentDestImagefile => E57_ERROR_DIFFERENT_DEST_IMAGEFILE
    case ImagefileNotOpen => E57_ERROR_IMAGEFILE_NOT_OPEN
    case BuffersNotCompatible => E57_ERROR_BUFFERS_NOT_COMPATIBLE
    case TooManyWriters => E57_ERROR_TOO_MANY_WRITERS
    case TooManyReaders => E57_ERROR_TOO_MANY_READERS
    case BadConfiguration => E57_ERROR_BAD_CONFIGURATION
    case InvarianceViolation => E57_ERROR_INVARIANCE_VIOLATION
  }

  /** The number of enumerators the switch has a case for. */
  const KindCount: nat := 51

  /** The position of each enumerator's case in the switch, counting from 0. */
  function Ordinal(k: ErrorKind): (i: nat)
    ensures i < KindCount
  {
    match k
    case Success => 0
    case BadCvHeader => 1
    case BadCvPacket => 2
    case ChildIndexOutOfBounds => 3
    case SetTwice => 4
    case HomogeneousViolation => 5
    case ValueNotRepresentable => 6
    case ScaledValueNotRepresentable => 7
    case Real64TooLarge => 8
    case ExpectingNumeric => 9
    case ExpectingUstring => 10
    case Internal => 11
    case BadXmlFormat => 12
    case XmlParser => 13
    case BadApiArgument => 14
    case FileIsReadOnly => 15
    case BadChecksum => 16
    case OpenFailed => 17
    case CloseFailed => 18
    case ReadFailed => 19
    case WriteFailed => 20
    case LseekFailed => 21
    case PathUndefined => 22
    case BadBuffer => 23
    case NoBufferForElement => 24
    case BufferSizeMismatch => 25
    case BufferDuplicatePathname => 26
    case BadFileSignature => 27
    case UnknownFileVersion => 28
    case BadFileLength => 29
    case XmlParserInit => 30
    case DuplicateNamespacePrefix => 31
    case DuplicateNamespaceUri => 32
    case BadPrototype => 33
    case BadCodecs => 34
    case ValueOutOfBounds => 35
    case ConversionRequired => 36
    case BadPathName => 37
    case NotImplemented => 38
    case BadNodeDowncast => 39
    case WriterNotOpen => 40
    case ReaderNotOpen => 41
    case NodeUnattached => 42
    case AlreadyHasParent => 43
    case DifferentDestImagefile => 44
    case ImagefileNotOpen => 45
    case BuffersNotCompatible => 46
    case TooManyWriters => 47
    case TooManyReaders => 48
    case BadConfiguration => 49
    case InvarianceViolation => 50
  }

  /** The enumerator whose case comes at position `i` of the switch. */
  function KindAt(i: nat): ErrorKind
    requires i < KindCount
  {
    match i
    case 0 => Success
    case 1 => BadCvHeader
    case 2 => BadCvPacket
    case 3 => ChildIndexOutOfBounds
    case 4 => SetTwice
    case 5 => HomogeneousViolation
    case 6 => ValueNotRepresentable
    case 7 => ScaledValueNotRepresentable
    case 8 => Real64TooLarge
    case 9 => ExpectingNumeric
    case 10 => ExpectingUstring
    case 11 => Internal
    case 12 => BadXmlFormat
    case 13 => XmlParser
    case 14 => BadApiArgument
    case 15 => FileIsReadOnly
    case 16 => BadChecksum
    case 17 => OpenFailed
    case 18 => CloseFailed
    case 19 => ReadFailed
    case 20 => WriteFailed
    case 21 => LseekFailed
    case 22 => PathUndefined
    case 23 => BadBuffer
    case 24 => NoBufferForElement
    case 25 => BufferSizeMismatch
    case 26 => BufferDuplicatePathname
    case 27 => BadFileSignature
    case 28 => UnknownFileVersion
    case 29 => BadFileLength
    case 30 => XmlParserInit
    case 31 => DuplicateNamespacePrefix
    case 32 => DuplicateNamespaceUri
    case 33 => BadPrototype
    case 34 => BadCodecs
    case 35 => ValueOutOfBounds
    case 36 => ConversionRequired
    case 37 => BadPathName
    case 38 => NotImplemented
    case 39 => BadNodeDowncast
    case 40 => WriterNotOpen
    case 41 => ReaderNotOpen
    case 42 => NodeUnattached
    case 43 => AlreadyHasParent
    case 44 => DifferentDestImagefile
    case 45 => ImagefileNotOpen
    case 46 => BuffersNotCompatible
    case 47 => TooManyWriters
    case 48 => TooManyReaders
    case 49 => BadConfiguration
    case _ => InvarianceViolation
  }

  /**
   Each enumerator is found again at its own position of the switch. The
   proof is split by thirds of the switch to keep each obligation small.
   */
  lemma KindAtOrdinal(k: ErrorKind)
    ensures KindAt(Ordinal(k)) == k
  {
    if Ordinal(k) < 17 {
      KindAtOrdinalLow(k);
    } else if Ordinal(k) < 34 {
      KindAtOrdinalMid(k);
    } else {
      KindAtOrdinalHigh(k);
    }
  }

  lemma KindAtOrdinalLow(k: ErrorKind)
    requires Ordinal(k) < 17
    ensures KindAt(Ordinal(k)) == k
  {
  }

  lemma KindAtOrdinalMid(k: ErrorKind)
    requires 17 <= Ordinal(k) < 34
    ensures KindAt(Ordinal(k)) == k
  {
  }

  lemma KindAtOrdinalHigh(k: ErrorKind)
    requires 34 <= Ordinal(k)
    ensures KindAt(Ordinal(k)) == k
  {
  }

  /** Position `i` of the switch holds one enumerator only. */
  lemma OnlyKindAt(i: nat)
    requires i < KindCount
    ensures forall k :: Ordinal(k) == i ==> k == KindAt(i)
  {
    forall k | Ordinal(k) == i ensures k == KindAt(i) { KindAtOrdinal(k); }
  }

  /** The numeric value E57Exception.h gives each enumerator identifier. */
  datatype Enumeration = Enumeration(valueOf: Identifier -> int)

  /** The value an enumerator has under the numbering `en`. */
  function Value(en: Enumeration, k: ErrorKind): int {
    en.valueOf(SymbolicName(k))
  }

  /**
   No two enumerators share a value. A C++ switch cannot have two case labels
   with the same value, so every numbering under which the catalog compiles
   has this property.
   */
  predicate Distinct(en: Enumeration) {
    forall a, b :: Value(en, a) == Value(en, b) ==> a == b
  }

  /**
   A numbering that gives each identifier its position in the switch, and
   every other string -1: one numbering under which no two enumerators share
   a value, so Distinct is satisfiable. An identifier is recognised by its
   length and its characters at index 10 and four from the end, which
   together tell the 51 identifiers apart.
   */
  function NameOrdinal(s: Identifier): int {
    if |s| < 11 then -1 else PositionOfKey(|s|, s[10], s[|s| - 4])
  }

  /** The switch position of the identifier with this length and these two characters. */
  function PositionOfKey(n: int, a: char, b: char): int {
    if n == 11 && a == 'S' && b == 'C' then 0  // E57_SUCCESS
    else if n == 23 && a == 'B' && b == 'A' then 1  // E57_ERROR_BAD_CV_HEADER
    else if n == 23 && a == 'B' && b == 'C' then 2  // E57_ERROR_BAD_CV_PACKET
    else if n == 35 && a == 'C' && b == 'U' then 3  // E57_ERROR_CHILD_INDEX_OUT_OF_BOUNDS
    else if n == 19 && a == 'S' && b == 'W' then 4  // E57_ERROR_SET_TWICE
    else if n == 31 && a == 'H' && b == 'T' then 5  // E57_ERROR_HOMOGENEOUS_VIOLATION
    else if n == 33 && a == 'V' && b == 'A' then 6  // E57_ERROR_VALUE_NOT_REPRESENTABLE
    else if n == 40 && a == 'S' && b == 'A' then 7  // E57_ERROR_SCALED_VALUE_NOT_REPRESENTABLE
    else if n == 26 && a == 'R' && b == 'A' then 8  // E57_ERROR_REAL64_TOO_LARGE
    else if n == 27 && a == 'E' && b == 'E' then 9  // E57_ERROR_EXPECTING_NUMERIC
    else if n == 27 && a == 'E' && b == 'R' then 10  // E57_ERROR_EXPECTING_USTRING
    else if n == 18 && a == 'I' && b == 'R' then 11  // E57_ERROR_INTERNAL
    else if n == 24 && a == 'B' && b == 'R' then 12  // E57_ERROR_BAD_XML_FORMAT
    else if n == 20 && a == 'X' && b == 'R' then 13  // E57_ERROR_XML_PARSER
    else if n == 26 && a == 'B' && b == 'M' then 14  // E57_ERROR_BAD_API_ARGUMENT
    else if n == 27 && a == 'F' && b == 'O' then 15  // E57_ERROR_FILE_IS_READ_ONLY
    else if n == 22 && a == 'B' && b == 'K' then 16  // E57_ERROR_BAD_CHECKSUM
    else if n == 21 && a == 'O' && b == 'I' then 17  // E57_ERROR_OPEN_FAILED
    else if n == 22 && a == 'C' && b == 'I' then 18  // E57_ERROR_CLOSE_FAILED
    else if n == 21 && a == 'R' && b == 'I' then 19  // E57_ERROR_READ_FAILED
    else if n == 22 && a == 'W' && b == 'I' then 20  // E57_ERROR_WRITE_FAILED
    else if n == 22 && a == 'L' && b == 'I' then 21  // E57_ERROR_LSEEK_FAILED
    else if n == 24 && a == 'P' && b == 'I' then 22  // E57_ERROR_PATH_UNDEFINED
    else if n == 20 && a == 'B' && b == 'F' then 23  // E57_ERROR_BAD_BUFFER
    else if n == 31 && a == 'N' && b == 'M' then 24  // E57_ERROR_NO_BUFFER_FOR_ELEMENT
    else if n == 30 && a == 'B' && b == 'A' then 25  // E57_ERROR_BUFFER_SIZE_MISMATCH
    else if n == 35 && a == 'B' && b == 'N' then 26  // E57_ERROR_BUFFER_DUPLICATE_PATHNAME
    else if n == 28 && a == 'B' && b == 'T' then 27  // E57_ERROR_BAD_FILE_SIGNATURE
    else if n == 30 && a == 'U' && b == 'S' then 28  // E57_ERROR_UNKNOWN_FILE_VERSION
    else if n == 25 && a == 'B' && b == 'N' then 29  // E57_ERROR_BAD_FILE_LENGTH
    else if n == 25 && a == 'X' && b == 'I' then 30  // E57_ERROR_XML_PARSER_INIT
    else if n == 36 && a == 'D' && b == 'E' then 31  // E57_ERROR_DUPLICATE_NAMESPACE_PREFIX
    else if n == 33 && a == 'D' && b == '_' then 32  // E57_ERROR_DUPLICATE_NAMESPACE_URI
    else if n == 23 && a == 'B' && b == 'T' then 33  // E57_ERROR_BAD_PROTOTYPE
    else if n == 20 && a == 'B' && b == 'D' then 34  // E57_ERROR_BAD_CODECS
    else if n == 29 && a == 'V' && b == 'U' then 35  // E57_ERROR_VALUE_OUT_OF_BOUNDS
    else if n == 29 && a == 'C' && b == 'I' then 36  // E57_ERROR_CONVERSION_REQUIRED
    else if n == 23 && a == 'B' && b == 'N' then 37  // E57_ERROR_BAD_PATH_NAME
    else if n == 25 && a == 'N' && b == 'N' then 38  // E57_ERROR_NOT_IMPLEMENTED
    else if n == 27 && a == 'B' && b == 'C' then 39  // E57_ERROR_BAD_NODE_DOWNCAST
    else if n == 25 && a == 'W' && b == 'O' then 40  // E57_ERROR_WRITER_NOT_OPEN
    else if n == 25 && a == 'R' && b == 'O' then 41  // E57_ERROR_READER_NOT_OPEN
    else if n == 25 && a == 'N' && b == 'C' then 42  // E57_ERROR_NODE_UNATTACHED
    else if n == 28 && a == 'A' && b == 'R' then 43  // E57_ERROR_ALREADY_HAS_PARENT
    else if n == 34 && a == 'D' && b == 'F' then 44  // E57_ERROR_DIFFERENT_DEST_IMAGEFILE
    else if n == 28 && a == 'I' && b == 'O' then 45  // E57_ERROR_IMAGEFILE_NOT_OPEN
    else if n == 32 && a == 'B' && b == 'I' then 46  // E57_ERROR_BUFFERS_NOT_COMPATIBLE
    else if n == 26 && a == 'T' && b == 'T' then 47  // E57_ERROR_TOO_MANY_WRITERS
    else if n == 26 && a == 'T' && b == 'D' then 48  // E57_ERROR_TOO_MANY_READERS
    else if n == 27 && a == 'B' && b == 'T' then 49  // E57_ERROR_BAD_CONFIGURATION
    else if n == 30 && a == 'I' && b == 'T' then 50  // E57_ERROR_INVARIANCE_VIOLATION
    else -1
  }

  /**
   Each identifier is numbered with its own enumerator's position, proved
   three positions at a time to keep each proof small.
   */
  lemma NameOrdinalOf(k: ErrorKind)
    ensures NameOrdinal(SymbolicName(k)) == Ordinal(k)
  {
    if Ordinal(k) < 3 {
      NameOrdinalFrom0(k);
    } else if Ordinal(k) < 6 {
      NameOrdinalFrom3(k);
    } else if Ordinal(k) < 9 {
      NameOrdinalFrom6(k);
    } else if Ordinal(k) < 12 {
      NameOrdinalFrom9(k);
    } else if Ordinal(k) < 15 {
      NameOrdinalFrom12(k);
    } else if Ordinal(k) < 18 {
      NameOrdinalFrom15(k);
    } else if Ordinal(k) < 21 {
      NameOrdinalFrom18(k);
    } else if Ordinal(k) < 24 {
      NameOrdinalFrom21(k);
    } else if Ordinal(k) < 27 {
      NameOrdinalFrom24(k);
    } else if Ordinal(k) < 30 {
      NameOrdinalFrom27(k);
    } else if Ordinal(k) < 33 {
      NameOrdinalFrom30(k);
    } else if Ordinal(k) < 36 {
      NameOrdinalFrom33(k);
    } else if Ordinal(k) < 39 {
      NameOrdinalFrom36(k);
    } else if Ordinal(k) < 42 {
      NameOrdinalFrom39(k);
    } else if Ordinal(k) < 45 {
      NameOrdinalFrom42(k);
    } else if Ordinal(k) < 48 {
      NameOrdinalFrom45(k);
    } else {
      NameOrdinalFrom48(k);
    }
  }

  lemma NameOrdinalFrom0(k: ErrorKind)
    requires Ordinal(k) < 3
    ensures NameOrdinal(SymbolicName(k)) == Ordinal(k)
  {
  }

  lemma NameOrdinalFrom3(k: ErrorKind)
    requires 3 <= Ordinal(k) < 6
    ensures NameOrdinal(SymbolicName(k)) == Ordinal(k)
  {
  }

  lemma NameOrdinalFrom6(k: ErrorKind)
    requires 6 <= Ordinal(k) < 9
    ensures NameOrdinal(SymbolicName(k)) == Ordinal(k)
  {
  }

  lemma NameOrdinalFrom9(k: ErrorKind)
    requires 9 <= Ordinal(k) < 12
    ensures NameOrdinal(SymbolicName(k)) == Ordinal(k)
  {
  }

  lemma NameOrdinalFrom12(k: ErrorKind)
    requires 12 <= Ordinal(k) < 15
    ensures NameOrdinal(SymbolicName(k)) == Ordinal(k)
  {
  }

  lemma NameOrdinalFrom15(k: ErrorKind)
    requires 15 <= Ordinal(k) < 18
    ensures NameOrdinal(SymbolicName(k)) == Ordinal(k)
  {
  }

  lemma NameOrdinalFrom18(k: ErrorKind)
    requires 18 <= Ordinal(k) < 21
    ensures NameOrdinal(SymbolicName(k)) == Ordinal(k)
  {
  }

  lemma NameOrdinalFrom21(k: ErrorKind)
    requires 21 <= Ordinal(k) < 24
    ensures NameOrdinal(SymbolicName(k)) == Ordinal(k)
  {
  }

  lemma NameOrdinalFrom24(k: ErrorKind)
    requires 24 <= Ordinal(k) < 27
    ensures NameOrdinal(SymbolicName(k)) == Ordinal(k)
  {
  }

  lemma NameOrdinalFrom27(k: ErrorKind)
    requires 27 <= Ordinal(k) < 30
    ensures NameOrdinal(SymbolicName(k)) == Ordinal(k)
  {
  }

  lemma NameOrdinalFrom30(k: ErrorKind)
    requires 30 <= Ordinal(k) < 33
    ensures NameOrdinal(SymbolicName(k)) == Ordinal(k)
  {
  }

  lemma NameOrdinalFrom33(k: ErrorKind)
    requires 33 <= Ordinal(k) < 36
    ensures NameOrdinal(SymbolicName(k)) == Ordinal(k)
  {
  }

  lemma NameOrdinalFrom36(k: ErrorKind)
    requires 36 <= Ordinal(k) < 39
    ensures NameOrdinal(SymbolicName(k)) == Ordinal(k)
  {
  }

  lemma NameOrdinalFrom39(k: ErrorKind)
    requires 39 <= Ordinal(k) < 42
    ensures NameOrdinal(SymbolicName(k)) == Ordinal(k)
  {
  }

  lemma NameOrdinalFrom42(k: ErrorKind)
    requires 42 <= Ordinal(k) < 45
    ensures NameOrdinal(SymbolicName(k)) == Ordinal(k)
  {
  }

  lemma NameOrdinalFrom45(k: ErrorKind)
    requires 45 <= Ordinal(k) < 48
    ensures NameOrdinal(SymbolicName(k)) == Ordinal(k)
  {
  }

  lemma NameOrdinalFrom48(k: ErrorKind)
    requires 48 <= Ordinal(k)
    ensures NameOrdinal(SymbolicName(k)) == Ordinal(k)
  {
  }

  /** Some numbering has no duplicate values: the one by switch position. */
  lemma DistinctSatisfiable()
    ensures Distinct(Enumeration(NameOrdinal))
  {
    var en := Enumeration(NameOrdinal);
    forall a, b | Value(en, a) == Value(en, b) ensures a == b {
      NameOrdinalOf(a);
      NameOrdinalOf(b);
      KindAtOrdinal(a);
      KindAtOrdinal(b);
    }
  }

  /** An ErrorCode value as the switch classifies it: one of its cases, or the default. */
  datatype Code = Named(kind: ErrorKind) | Unnamed(value: int)

  /**
   The first case, at position `from` or later, whose enumerator has value
   `n`: the dispatch of the switch over the remaining case labels.
   */
  function FindCase(en: Enumeration, n: int, from: nat): (r: Option<ErrorKind>)
    requires from <= KindCount
    ensures r.Some? ==> Value(en, r.value) == n
    ensures r.Some? ==> forall k :: from <= Ordinal(k) < Ordinal(r.value) ==> Value(en, k) != n
    ensures r.None? ==> forall k :: from <= Ordinal(k) ==> Value(en, k) != n
    decreases KindCount - from
  {
    if from == KindCount then None
    else
      var k := KindAt(from);
      OnlyKindAt(from);
      if Value(en, k) == n then Some(k) else FindCase(en, n, from + 1)
  }

  /** Which branch of the switch a numeric ErrorCode value takes. */
  function Classify(en: Enumeration, n: int): (c: Code)
    ensures c.Named? ==> Value(en, c.kind) == n
    ensures c.Unnamed? <==> forall k :: Value(en, k) != n
    ensures c.Unnamed? ==> c.value == n
    ensures Distinct(en) ==> forall k :: Value(en, k) == n ==> c == Named(k)
  {
    match FindCase(en, n, 0)
    case Some(k) => Named(k)
    case None => Unnamed(n)
  }
}

=== FILE: exception.dfy ===
/**
 The E57Exception value: what its constructor stores, what its accessors
 return, and the lines report() writes about it.
 */
module Exceptions {
  import opened Wrappers
  import opened Text
  import opened Decimal
  import opened SourcePath
  import opened Identifiers
  import opened ErrorCodes
  import opened Catalog

  /**
   An exception as stored after construction. The ErrorCode is kept as its
   numeric value, since report() prints that value and errorCodeToString
   classifies it.
   */
  datatype E57Exception = E57Exception(
    errorCode: int,
    context: string,
    sourceFileName: string,
    sourceLineNumber: int,
    sourceFunctionName: string)

  /**
   The constructor: every argument is stored unchanged except the source file
   path, of which only the last component is kept.
   */
  function NewException(
    code: int,
    context: string,
    srcFileName: CppString,
    srcLineNumber: int,
    srcFunctionName: string): (e: E57Exception)
    ensures IsBasenameOf(e.sourceFileName, srcFileName)
    ensures e.errorCode == code && e.context == context
    ensures e.sourceLineNumber == srcLineNumber && e.sourceFunctionName == srcFunctionName
  {
    E57Exception(code, context, Basename(srcFileName), srcLineNumber, srcFunctionName)
  }

  /** The category string what() returns, whatever the exception. */
  const Category: string := "E57 exception"

  function What(e: E57Exception): (r: string)
    ensures |r| > 0
  {
    Category
  }

  /** what() does not depend on the exception. */
  lemma WhatIsConstant(a: E57Exception, b: E57Exception)
    ensures What(a) == What(b) == "E57 exception"
  {
  }

  /** The first line report() writes, before the description of the code. */
  const Banner: string := "**** Got an e57 exception: "

  /** What follows the error code on the line naming where the exception was thrown. */
  const OccurredOn: string := ":  <--- occurred on"

  /** What follows the error code on the line naming where it was caught. */
  const ReportedOn: string := ":  <--- reported on"

  /** What separates the line number from the error code on a location line. */
  const ErrorMarker: string := ") : error C"

  /** A place in the source together with the error code reported there. */
  datatype Location = Location(file: string, line: int, code: int)

  /**
   A line of the form "file(line) : error Ccode" followed by `tail`, which an
   editor reads as a link to the source.
   */
  function LocationLine(file: string, line: int, code: int, tail: string): (s: string)
    ensures |s| > |file| + |tail| && IsSuffix(tail, s) && s[..|file|] == file
  {
    Coded(file, line, code) + tail
  }

  /** The part of a location line before its trailer: "file(line) : error Ccode". */
  function Coded(file: string, line: int, code: int): string {
    file + "(" + FromInt(line) + ErrorMarker + FromInt(code)
  }

  /**
   Reads "file(line" back: the line number is the numeral after the last '(',
   the file name everything before it.
   */
  function ParsePlace(place: string): (r: Option<(string, int)>)
    ensures r.Some? ==> |r.value.0| < |place| && place[..|r.value.0|] == r.value.0
  {
    match LastIndexIn(place, {'('})
    case None => None
    case Some(j) =>
      match ToInt(place[j + 1..])
      case None => None
      case Some(line) => Some((place[..j], line))
  }

  /**
   Reads "file(line) : error Ccode" back: the error code is the numeral after
   the last 'C', and what precedes the marker before it is read by ParsePlace.
   */
  function ParseCoded(rest: string): (r: Option<Location>)
    ensures r.Some? ==> |r.value.file| <= |rest| && rest[..|r.value.file|] == r.value.file
  {
    match LastIndexIn(rest, {'C'})
    case None => None
    case Some(i) =>
      var head := rest[..i + 1];
      if |head| < |ErrorMarker| || head[|head| - |ErrorMarker|..] != ErrorMarker then None
      else
        var place := head[..|head| - |ErrorMarker|];
        match (ParsePlace(place), ToInt(rest[i + 1..]))
        case (Some((file, line)), Some(code)) =>
          assert place == rest[..|place|];
          Some(Location(file, line, code))
        case _ => None
  }

  /** Reads a location line back once its trailer `tail` is removed. */
  function ParseLocationLine(s: string, tail: string): (r: Option<Location>)
    ensures r.Some? ==> |r.value.file| + |tail| <= |s| && IsSuffix(tail, s) && s[..|r.value.file|] == r.value.file
  {
    if |s| < |tail| || s[|s| - |tail|..] != tail then None
    else
      var rest := s[..|s| - |tail|];
      var r := ParseCoded(rest);
      assert r.Some? ==> rest[..|r.value.file|] == s[..|r.value.file|];
      r
  }

  /** "file(line" reads back as the file name and the line numeral's value. */
  lemma {:induction false} ParsePlaceOfParts(file: string, lineText: string)
    requires Avoids(lineText, {'('}) && ToInt(lineText).Some?
    ensures ParsePlace(file + "(" + lineText) == Some((file, ToInt(lineText).value))
  {
    var place := file + "(" + lineText;
    LastIndexInSplit(file, '(', lineText, {'('});
    assert place[..|file|] == file && place[|file| + 1..] == lineText;
  }

  /** A place that reads back, the marker and a code numeral free of 'C' read back together. */
  lemma {:induction false} ParseCodedOfParts(place: string, codeText: string)
    requires ParsePlace(place).Some?
    requires Avoids(codeText, {'C'}) && ToInt(codeText).Some?
    ensures ParseCoded(place + ErrorMarker + codeText)
         == Some(Location(ParsePlace(place).value.0, ParsePlace(place).value.1, ToInt(codeText).value))
  {
    var head := place + ErrorMarker;
    var rest := head + codeText;
    assert head == head[..|head| - 1] + ['C'];
    LastIndexInSplit(head[..|head| - 1], 'C', codeText, {'C'});
    assert rest[..|head|] == head && rest[|head|..] == codeText;
    assert head[..|head| - |ErrorMarker|] == place;
  }

  /**
   A line assembled from a file name, a line numeral free of '(' and a code
   numeral free of 'C' reads back as those three parts, whatever characters
   the file name holds.
   */
  lemma {:induction false} ParseOfParts(file: string, lineText: string, codeText: string, tail: string)
    requires Avoids(lineText, {'('}) && Avoids(codeText, {'C'})
    requires ToInt(lineText).Some? && ToInt(codeText).Some?
    ensures ParseLocationLine(file + "(" + lineText + ErrorMarker + codeText + tail, tail)
         == Some(Location(file, ToInt(lineText).value, ToInt(codeText).value))
  {
    var place := file + "(" + lineText;
    ParsePlaceOfParts(file, lineText);
    ParseCodedOfParts(place, codeText);
    var rest := place + ErrorMarker + codeText;
    var s := rest + tail;
    assert s[..|s| - |tail|] == rest;
  }

  /** Every location line reads back as the place and code it was written from. */
  lemma LocationLineRoundTrip(file: string, line: int, code: int, tail: string)
    ensures ParseLocationLine(LocationLine(file, line, code, tail), tail) == Some(Location(file, line, code))
  {
    NumeralAvoids(line, {'('});
    NumeralAvoids(code, {'C'});
    ToIntFromInt(line);
    ToIntFromInt(code);
    ParseOfParts(file, FromInt(line), FromInt(code), tail);
  }

  /** A "file(line" text ParsePlace accepts is exactly the one it names. */
  lemma ParsePlaceExact(place: string, file: string, line: int)
    requires ParsePlace(place) == Some((file, line))
    ensures place == file + "(" + FromInt(line)
  {
    var j := LastIndexIn(place, {'('}).value;
    var lineText := place[j + 1..];
    assert file == place[..j] && place[j] == '(' && ToInt(lineText) == Some(line);
    FromIntToInt(lineText);
    assert place == place[..j] + [place[j]] + lineText;
  }

  /** A text cut at two points is the concatenation of its three pieces. */
  lemma ThreePieces(s: string, m: nat, n: nat)
    requires m <= n <= |s|
    ensures s == s[..n][..m] + s[..n][m..] + s[n..]
  {
    assert s[..n] == s[..n][..m] + s[..n][m..];
  }

  /** A "file(line) : error Ccode" text ParseCoded accepts is exactly the one it names. */
  lemma ParseCodedExact(rest: string, loc: Location)
    requires ParseCoded(rest) == Some(loc)
    ensures rest == Coded(loc.file, loc.line, loc.code)
  {
    var i := LastIndexIn(rest, {'C'}).value;
    var head := rest[..i + 1];
    var m := |head| - |ErrorMarker|;
    var place := head[..m];
    var codeText := rest[i + 1..];
    assert head[m..] == ErrorMarker;
    assert loc == Location(ParsePlace(place).value.0, ParsePlace(place).value.1, ToInt(codeText).value);
    ParsePlaceExact(place, loc.file, loc.line);
    FromIntToInt(codeText);
    ThreePieces(rest, m, i + 1);
  }

  /** A text is what precedes its suffix followed by that suffix. */
  lemma JoinTail(s: string, tail: string, front: string)
    requires IsSuffix(tail, s) && s[..|s| - |tail|] == front
    ensures s == front + tail
  {
    assert s == s[..|s| - |tail|] + s[|s| - |tail|..];
  }

  /** A line ParseLocationLine accepts ends in its trailer, and what precedes it is read by ParseCoded. */
  lemma ParseLocationLineStrips(s: string, tail: string)
    requires ParseLocationLine(s, tail).Some?
    ensures IsSuffix(tail, s) && ParseLocationLine(s, tail) == ParseCoded(s[..|s| - |tail|])
  {
  }

  /**
   A line that reads back is exactly the location line of what it reads back
   as: with LocationLineRoundTrip, the reader and the writer are inverse, so
   the place and code fix the text character for character.
   */
  lemma ParseLocationLineExact(s: string, tail: string, loc: Location)
    requires ParseLocationLine(s, tail) == Some(loc)
    ensures s == LocationLine(loc.file, loc.line, loc.code, tail)
  {
    ParseLocationLineStrips(s, tail);
    ParseCodedExact(s[..|s| - |tail|], loc);
    JoinTail(s, tail, Coded(loc.file, loc.line, loc.code));
  }

  /**
   The first line of every report: the description of the exception's code,
   whose trailing parenthesised group still reads back as the code's
   identifier or numeral.
   */
  function Headline(e: E57Exception, en: Enumeration): (line: string)
    ensures |line| > |Banner| && line[..|Banner|] == Banner
    ensures line[|Banner|..] == ErrorCodeToString(en, e.errorCode)
    ensures TrailingName(line) == Some(Label(Classify(en, e.errorCode)))
  {
    var c := Classify(en, e.errorCode);
    EncloseAfter(Banner, Lead(c), Label(c));
    TrailingNameAfter(Banner + Lead(c), Label(c));
    Banner + ErrorCodeToString(en, e.errorCode)
  }

  /**
   The two location lines of a debug report: where the exception was thrown,
   and where it was caught when that file is known. Both read back as the
   place and code they name.
   */
  function LocationLines(e: E57Exception, reportingFileName: Option<string>, reportingLineNumber: int): (lines: seq<string>)
    ensures |lines| == if reportingFileName.Some? then 2 else 1
    ensures ParseLocationLine(lines[0], OccurredOn) == Some(Location(e.sourceFileName, e.sourceLineNumber, e.errorCode))
    ensures reportingFileName.Some? ==>
      ParseLocationLine(lines[1], ReportedOn) == Some(Location(reportingFileName.value, reportingLineNumber, 0))
  {
    LocationLineRoundTrip(e.sourceFileName, e.sourceLineNumber, e.errorCode, OccurredOn);
    var occurred := LocationLine(e.sourceFileName, e.sourceLineNumber, e.errorCode, OccurredOn);
    match reportingFileName
    case None => [occurred]
    case Some(f) =>
      LocationLineRoundTrip(f, reportingLineNumber, 0, ReportedOn);
      [occurred, LocationLine(f, reportingLineNumber, 0, ReportedOn)]
  }

  /** The line that opens the debug part of a report. */
  const DebugHeading: string := "  Debug info: "

  /** A debug line giving one named value: "    name: value". */
  function DebugField(name: string, value: string): (line: string)
    ensures |line| == |name| + |value| + 6 && line[..4] == "    " && line[4..|name| + 4] == name
    ensures line[|name| + 4..|name| + 6] == ": " && line[|name| + 6..] == value
  {
    "    " + name + ": " + value
  }

  /**
   The lines a build with debugging enabled adds: a heading, the context, the
   function that threw, the catching function when known, then the location
   lines.
   */
  function DebugLines(
    e: E57Exception,
    reportingFileName: Option<string>,
    reportingLineNumber: int,
    reportingFunctionName: Option<string>): (lines: seq<string>)
    ensures |lines| >= 4
    ensures lines[..3] == [DebugHeading, DebugField("context", e.context), DebugField("sourceFunctionName", e.sourceFunctionName)]
    ensures reportingFunctionName.Some? ==> lines[3..4] == [DebugField("reportingFunctionName", reportingFunctionName.value)]
    ensures reportingFunctionName.Some? ==> lines[4..] == LocationLines(e, reportingFileName, reportingLineNumber)
    ensures reportingFunctionName.None? ==> lines[3..] == LocationLines(e, reportingFileName, reportingLineNumber)
  {
    var front := [DebugHeading, DebugField("context", e.context), DebugField("sourceFunctionName", e.sourceFunctionName)];
    match reportingFunctionName
    case None => front + LocationLines(e, reportingFileName, reportingLineNumber)
    case Some(f) => front + [DebugField("reportingFunctionName", f)] + LocationLines(e, reportingFileName, reportingLineNumber)
  }

  /**
   The lines report() writes, each followed by a newline: the headline, and
   in a build with debugging enabled the debug lines. A reporting file or
   function name that is absent (a null pointer) leaves its line out.
   */
  function Report(
    e: E57Exception,
    en: Enumeration,
    debug: bool,
    reportingFileName: Option<string>,
    reportingLineNumber: int,
    reportingFunctionName: Option<string>): (lines: seq<string>)
    ensures |lines| > 0 && lines[0] == Headline(e, en)
    ensures !debug ==> |lines| == 1
    ensures debug ==> lines[1..] == DebugLines(e, reportingFileName, reportingLineNumber, reportingFunctionName)
  {
    [Headline(e, en)]
    + (if debug then DebugLines(e, reportingFileName, reportingLineNumber, reportingFunctionName) else [])
  }

  /**
   An exception thrown with code `k` from `dir/file`, reported by a debug
   build with no catch site known: the report is five writes, each ended by
   std::endl. The first names the enumerator, the third carries the context,
   and the last points at file(line) without the directory. A build without
   debugging makes the first write only.
   */
  lemma ReportOfThrow(en: Enumeration, k: ErrorKind, context: string, dir: string, file: string, line: int, functionName: string)
    requires Distinct(en)
    requires Avoids(file, Separators) && |dir| + 1 + |file| < Npos
    ensures
      var e := NewException(Value(en, k), context, dir + "/" + file, line, functionName);
      var lines := Report(e, en, true, None, 0, None);
      && e.sourceFileName == file
      && |lines| == 5
      && TrailingName(lines[0]) == Some(SymbolicName(k))
      && lines[2] == DebugField("context", context)
      && ParseLocationLine(lines[4], OccurredOn) == Some(Location(file, line, Value(en, k)))
      && Report(e, en, false, None, 0, None) == lines[..1]
  {
    BasenameOfJoin(dir, '/', file);
    assert dir + "/" + file == dir + ['/'] + file;
    var e := NewException(Value(en, k), context, dir + "/" + file, line, functionName);
    BareDebugReport(e, en);
  }

  /**
   A debug report with no catch site known, for any exception: five writes,
   each ended by std::endl (a context holding a newline makes more text lines).
   */
  lemma BareDebugReport(e: E57Exception, en: Enumeration)
    ensures
      var lines := Report(e, en, true, None, 0, None);
      && |lines| == 5
      && TrailingName(lines[0]) == Some(Label(Classify(en, e.errorCode)))
      && lines[2] == DebugField("context", e.context)
      && ParseLocationLine(lines[4], OccurredOn) == Some(Location(e.sourceFileName, e.sourceLineNumber, e.errorCode))
      && Report(e, en, false, None, 0, None) == lines[..1]
  {
    var lines := Report(e, en, true, None, 0, None);
    var debug := DebugLines(e, None, 0, None);
    assert lines[1..] == debug;
    assert lines[2] == debug[..3][1];
  }

  /**
   A checksum failure thrown at line 204 of /src/Reader.cpp in readPacket,
   reported by a debug build.
   */
  lemma ChecksumScenario(en: Enumeration)
    requires Distinct(en)
    ensures
      var e := NewException(Value(en, BadChecksum), "checksum=0xDEAD expected=0xBEEF", "/src/Reader.cpp", 204, "readPacket");
      var lines := Report(e, en, true, None, 0, None);
      && |lines| == 5
      && TrailingName(lines[0]) == Some(E57_ERROR_BAD_CHECKSUM)
      && lines[2] == DebugField("context", "checksum=0xDEAD expected=0xBEEF")
      && ParseLocationLine(lines[4], OccurredOn) == Some(Location("Reader.cpp", 204, Value(en, BadChecksum)))
  {
    assert "/src/Reader.cpp" == "/src" + "/" + "Reader.cpp";
    ReportOfThrow(en, BadChecksum, "checksum=0xDEAD expected=0xBEEF", "/src", "Reader.cpp", 204, "readPacket");
  }
}

=== FILE: identifiers.dfy ===
/**
 The identifiers of the enumerators of the library's ErrorCode type, spelled
 as in its header. Each is checked to have the shape of an identifier once,
 here, so that the catalog can rely on that shape without re-reading the text.
 */
module Identifiers {

  /**
   What the catalog relies on about the spelling of an enumerator
   identifier: it is not empty, it ends in an upper-case letter, and it holds
   no opening parenthesis (C++ identifiers are letters, digits and
   underscores).
   */
  predicate IsIdentifier(s: string) {
    && |s| > 0
    && 'A' <= s[|s| - 1] <= 'Z'
    && forall i :: 0 <= i < |s| ==> s[i] != '('
  }

  type Identifier = s: string | IsIdentifier(s) witness "E"

  const E57_SUCCESS: Identifier := "E57_SUCCESS"
  const E57_ERROR_BAD_CV_HEADER: Identifier := "E57_ERROR_BAD_CV_HEADER"
  const E57_ERROR_BAD_CV_PACKET: Identifier := "E57_ERROR_BAD_CV_PACKET"
  const E57_ERROR_CHILD_INDEX_OUT_OF_BOUNDS: Identifier := "E57_ERROR_CHILD_INDEX_OUT_OF_BOUNDS"
  const E57_ERROR_SET_TWICE: Identifier := "E57_ERROR_SET_TWICE"
  const E57_ERROR_HOMOGENEOUS_VIOLATION: Identifier := "E57_ERROR_HOMOGENEOUS_VIOLATION"
  const E57_ERROR_VALUE_NOT_REPRESENTABLE: Identifier := "E57_ERROR_VALUE_NOT_REPRESENTABLE"
  const E57_ERROR_SCALED_VALUE_NOT_REPRESENTABLE: Identifier := "E57_ERROR_SCALED_VALUE_NOT_REPRESENTABLE"
  const E57_ERROR_REAL64_TOO_LARGE: Identifier := "E57_ERROR_REAL64_TOO_LARGE"
  const E57_ERROR_EXPECTING_NUMERIC: Identifier := "E57_ERROR_EXPECTING_NUMERIC"
  const E57_ERROR_EXPECTING_USTRING: Identifier := "E57_ERROR_EXPECTING_USTRING"
  const E57_ERROR_INTERNAL: Identifier := "E57_ERROR_INTERNAL"
  const E57_ERROR_BAD_XML_FORMAT: Identifier := "E57_ERROR_BAD_XML_FORMAT"
  const E57_ERROR_XML_PARSER: Identifier := "E57_ERROR_XML_PARSER"
  const E57_ERROR_BAD_API_ARGUMENT: Identifier := "E57_ERROR_BAD_API_ARGUMENT"
  const E57_ERROR_FILE_IS_READ_ONLY: Identifier := "E57_ERROR_FILE_IS_READ_ONLY"
  const E57_ERROR_BAD_CHECKSUM: Identifier := "E57_ERROR_BAD_CHECKSUM"
  const E57_ERROR_OPEN_FAILED: Identifier := "E57_ERROR_OPEN_FAILED"
  const E57_ERROR_CLOSE_FAILED: Identifier := "E57_ERROR_CLOSE_FAILED"
  const E57_ERROR_READ_FAILED: Identifier := "E57_ERROR_READ_FAILED"
  const E57_ERROR_WRITE_FAILED: Identifier := "E57_ERROR_WRITE_FAILED"
  const E57_ERROR_LSEEK_FAILED: Identifier := "E57_ERROR_LSEEK_FAILED"
  const E57_ERROR_PATH_UNDEFINED: Identifier := "E57_ERROR_PATH_UNDEFINED"
  const E57_ERROR_BAD_BUFFER: Identifier := "E57_ERROR_BAD_BUFFER"
  const E57_ERROR_NO_BUFFER_FOR_ELEMENT: Identifier := "E57_ERROR_NO_BUFFER_FOR_ELEMENT"
  const E57_ERROR_BUFFER_SIZE_MISMATCH: Identifier := "E57_ERROR_BUFFER_SIZE_MISMATCH"
  const E57_ERROR_BUFFER_DUPLICATE_PATHNAME: Identifier := "E57_ERROR_BUFFER_DUPLICATE_PATHNAME"
  const E57_ERROR_BAD_FILE_SIGNATURE: Identifier := "E57_ERROR_BAD_FILE_SIGNATURE"
  const E57_ERROR_UNKNOWN_FILE_VERSION: Identifier := "E57_ERROR_UNKNOWN_FILE_VERSION"
  const E57_ERROR_BAD_FILE_LENGTH: Identifier := "E57_ERROR_BAD_FILE_LENGTH"
  const E57_ERROR_XML_PARSER_INIT: Identifier := "E57_ERROR_XML_PARSER_INIT"
  const E57_ERROR_DUPLICATE_NAMESPACE_PREFIX: Identifier := "E57_ERROR_DUPLICATE_NAMESPACE_PREFIX"
  const E57_ERROR_DUPLICATE_NAMESPACE_URI: Identifier := "E57_ERROR_DUPLICATE_NAMESPACE_URI"
  const E57_ERROR_BAD_PROTOTYPE: Identifier := "E57_ERROR_BAD_PROTOTYPE"
  const E57_ERROR_BAD_CODECS: Identifier := "E57_ERROR_BAD_CODECS"
  const E57_ERROR_VALUE_OUT_OF_BOUNDS: Identifier := "E57_ERROR_VALUE_OUT_OF_BOUNDS"
  const E57_ERROR_CONVERSION_REQUIRED: Identifier := "E57_ERROR_CONVERSION_REQUIRED"
  const E57_ERROR_BAD_PATH_NAME: Identifier := "E57_ERROR_BAD_PATH_NAME"
  const E57_ERROR_NOT_IMPLEMENTED: Identifier := "E57_ERROR_NOT_IMPLEMENTED"
  const E57_ERROR_BAD_NODE_DOWNCAST: Identifier := "E57_ERROR_BAD_NODE_DOWNCAST"
  const E57_ERROR_WRITER_NOT_OPEN: Identifier := "E57_ERROR_WRITER_NOT_OPEN"
  const E57_ERROR_READER_NOT_OPEN: Identifier := "E57_ERROR_READER_NOT_OPEN"
  const E57_ERROR_NODE_UNATTACHED: Identifier := "E57_ERROR_NODE_UNATTACHED"
  const E57_ERROR_ALREADY_HAS_PARENT: Identifier := "E57_ERROR_ALREADY_HAS_PARENT"
  const E57_ERROR_DIFFERENT_DEST_IMAGEFILE: Identifier := "E57_ERROR_DIFFERENT_DEST_IMAGEFILE"
  const E57_ERROR_IMAGEFILE_NOT_OPEN: Identifier := "E57_ERROR_IMAGEFILE_NOT_OPEN"
  const E57_ERROR_BUFFERS_NOT_COMPATIBLE: Identifier := "E57_ERROR_BUFFERS_NOT_COMPATIBLE"
  const E57_ERROR_TOO_MANY_WRITERS: Identifier := "E57_ERROR_TOO_MANY_WRITERS"
  const E57_ERROR_TOO_MANY_READERS: Identifier := "E57_ERROR_TOO_MANY_READERS"
  const E57_ERROR_BAD_CONFIGURATION: Identifier := "E57_ERROR_BAD_CONFIGURATION"
  const E57_ERROR_INVARIANCE_VIOLATION: Identifier := "E57_ERROR_INVARIANCE_VIOLATION"
}

=== FILE: source_path.dfy ===
/**
 The E57Exception constructor keeps only the last component of the source
 path it is given: srcFileName.substr(srcFileName.find_last_of("/\\") + 1).
 This module models that expression with std::size_t arithmetic written out,
 so that the "no separator" case goes through npos + 1 wrapping to 0.
 */
module SourcePath {
  import opened Wrappers
  import opened Text

  /** The two characters find_last_of is asked for: '/' and '\'. */
  const Separators: set<char> := {'/', '\\'}

  /** std::size_t arithmetic is taken modulo 2^64. */
  const SizeModulus: nat := 0x1_0000_0000_0000_0000

  /** std::string::npos, the largest std::size_t. */
  const Npos: nat := SizeModulus - 1

  /** A std::string is always shorter than npos (its max_size() lies below npos). */
  type CppString = s: string | |s| < Npos

  /** find_last_of("/\\"): the position of the last separator, or npos when there is none. */
  function FindLastSeparator(s: CppString): (pos: nat)
    ensures pos == Npos <==> Avoids(s, Separators)
    ensures pos != Npos ==> pos < |s| && s[pos] in Separators && Avoids(s[pos + 1..], Separators)
  {
    match LastIndexIn(s, Separators)
    case None => Npos
    case Some(i) => i
  }

  /**
   The std::size_t sum pos + 1 that is handed to substr: it wraps to 0 exactly
   at npos, and is the next position for every position below it.
   */
  function SubstrStart(pos: nat): (start: nat)
    ensures pos == Npos ==> start == 0
    ensures pos < Npos ==> start == pos + 1
  {
    (pos + 1) % SizeModulus
  }

  /**
   `name` is what remains of `path` once everything up to and including its
   last separator is dropped.
   */
  predicate IsBasenameOf(name: string, path: string) {
    && IsSuffix(name, path)
    && Avoids(name, Separators)
    && (|name| == |path| || path[|path| - |name| - 1] in Separators)
  }

  /** The sourceFileName the constructor stores for the path it is given. */
  function Basename(path: CppString): (name: string)
    ensures IsSuffix(name, path)
    ensures Avoids(name, Separators)
    ensures Avoids(path, Separators) ==> name == path
    ensures |name| < |path| ==> path[|path| - |name| - 1] in Separators
  {
    var pos := FindLastSeparator(path);
    var start := SubstrStart(pos);
    assert pos == Npos ==> start == 0;
    assert pos != Npos ==> start == pos + 1;
    path[start..]
  }

  /** The stored name is the only string that is a separator-free tail of the path cut at its last separator. */
  lemma BasenameCharacterisation(path: CppString, name: string)
    ensures IsBasenameOf(name, path) <==> name == Basename(path)
  {
    var b := Basename(path);
    if IsBasenameOf(name, path) {
      SeparatorBeforeShorter(path, name, b);
      SeparatorBeforeShorter(path, b, name);
      assert |name| == |b|;
      assert name == path[|path| - |name|..] == b;
    }
  }

  /**
   Of two suffixes of a path, the longer one covers the character just before
   the shorter one; if the longer holds no separator, neither does that
   character.
   */
  lemma SeparatorBeforeShorter(path: string, x: string, y: string)
    requires IsSuffix(x, path) && IsSuffix(y, path) && Avoids(y, Separators)
    ensures |x| < |y| ==> path[|path| - |x| - 1] !in Separators
  {
    if |x| < |y| {
      assert path[|path| - |x| - 1] == y[|y| - |x| - 1];
    }
  }

  /** Normalising an already normalised name changes nothing. */
  lemma BasenameIdempotent(path: CppString)
    ensures Basename(Basename(path)) == Basename(path)
  {
  }

  /** A directory part followed by a separator and a plain file name yields the file name. */
  lemma BasenameOfJoin(dir: string, sep: char, file: string)
    requires sep in Separators && Avoids(file, Separators)
    requires |dir| + 1 + |file| < Npos
    ensures Basename(dir + [sep] + file) == file
  {
    var path := dir + [sep] + file;
    assert path[|path| - |file|..] == file;
    assert path[|path| - |file| - 1] == sep;
    BasenameCharacterisation(path, file);
  }

  /** Appending a tail without a separator to a path appends it to the name. */
  lemma BasenameOfPlainTail(head: string, tail: string)
    requires |head| + |tail| < Npos && Avoids(tail, Separators)
    ensures Basename(head + tail) == Basename(head) + tail
  {
    var path := head + tail;
    var b := Basename(head);
    var n := b + tail;
    AvoidsConcat(b, tail, Separators);
    assert path[|path| - |n|..] == head[|head| - |b|..] + tail;
    if |n| < |path| {
      assert path[|path| - |n| - 1] == head[|head| - |b| - 1];
    }
    BasenameCharacterisation(path, n);
  }

  /** Appending a tail that holds a separator makes the tail alone decide the name. */
  lemma BasenameOfSeparatedTail(head: string, tail: string)
    requires |head| + |tail| < Npos && !Avoids(tail, Separators)
    ensures Basename(head + tail) == Basename(tail)
  {
    var path := head + tail;
    var n := Basename(tail);
    assert path[|path| - |n|..] == tail[|tail| - |n|..];
    assert path[|path| - |n| - 1] == tail[|tail| - |n| - 1];
    BasenameCharacterisation(path, n);
  }

  /** Three sample paths: with '/', with '\\', and with no separator. */
  lemma BasenameExamples()
    ensures Basename("a/b/c.cpp") == "c.cpp"
    ensures Basename("a\\b\\c.cpp") == "c.cpp"
    ensures Basename("c.cpp") == "c.cpp"
  {
    BasenameOfJoin("a/b", '/', "c.cpp");
    assert "a/b" + ['/'] + "c.cpp" == "a/b/c.cpp";
    BasenameOfJoin("a\\b", '\\', "c.cpp");
    assert "a\\b" + ['\\'] + "c.cpp" == "a\\b\\c.cpp";
  }
}

=== FILE: text.dfy ===
/**
 Character-level facts about strings that the catalog, the path normalisation
 and the report format are built on.
 */
module Text {
  import opened Wrappers

  /** `t` is a suffix of `s`. */
  predicate IsSuffix(t: string, s: string) {
    |t| <= |s| && s[|s| - |t|..] == t
  }

  /** No character of `s` belongs to `cs`. */
  predicate Avoids(s: string, cs: set<char>) {
    forall i :: 0 <= i < |s| ==> s[i] !in cs
  }

  /**
   The position of the last character of `s` that belongs to `cs`, if any:
   the search std::string::find_last_of performs.
   */
  function LastIndexIn(s: string, cs: set<char>): (r: Option<nat>)
    ensures r.None? <==> Avoids(s, cs)
    ensures r.Some? ==> r.value < |s| && s[r.value] in cs && Avoids(s[r.value + 1..], cs)
  {
    if |s| == 0 then None
    else if s[|s| - 1] in cs then Some(|s| - 1)
    else
      var r := LastIndexIn(s[..|s| - 1], cs);
      assert r.Some? ==> s[r.value + 1..] == s[..|s| - 1][r.value + 1..] + [s[|s| - 1]];
      r
  }

  lemma {:induction false} AvoidsConcat(a: string, b: string, cs: set<char>)
    ensures Avoids(a + b, cs) <==> Avoids(a, cs) && Avoids(b, cs)
  {
    if Avoids(a, cs) && Avoids(b, cs) {
      forall i | 0 <= i < |a + b| ensures (a + b)[i] !in cs {
        if i >= |a| { assert (a + b)[i] == b[i - |a|]; }
      }
    }
    if Avoids(a + b, cs) {
      forall i | 0 <= i < |a| ensures a[i] !in cs {
        assert (a + b)[i] == a[i];
      }
      forall i | 0 <= i < |b| ensures b[i] !in cs {
        assert (a + b)[|a| + i] == b[i];
      }
    }
  }

  /** A delimiter followed only by non-delimiters is the last delimiter. */
  lemma {:induction false} LastIndexInSplit(p: string, c: char, t: string, cs: set<char>)
    requires c in cs && Avoids(t, cs)
    ensures LastIndexIn(p + [c] + t, cs) == Some(|p|)
  {
    var s := p + [c] + t;
    assert s[|p|] == c;
  }
}

=== FILE: wrappers.dfy ===
/** Optional values, standing in for the C++ null pointers and sentinel positions of the library. */
module Wrappers {

  /** A value that may be absent. */
  datatype Option<+T> = None | Some(value: T)
}
